=== FILE: README.md ===
# CustoDesk AI chat gateway and site widgets — a Dafny model

This project models the logic of the CustoDesk AI marketing site:

- **the chat gateway** (`src/lib/gemini.ts`): a process-wide response cache,
  keyed by the verbatim prompt, with entries that go stale after one hour. Staleness
  is checked lazily at lookup. A successful upstream answer overwrites the entry. A
  failed upstream call is rethrown and leaves the cache untouched.
- **the `POST /api/chat` route** (`src/app/api/chat/route.ts`): it answers
  `{ message: reply }` with status 200, or `{ error: "Failed to process request" }`
  with status 500.
- **the two chat components** (`floating-chat.tsx`, `chat-box.tsx`): a guarded
  submit, an appended reply or apology, and loading cleared whatever happens. The
  floating widget adds its open/close button and the scroll nudge.
- **the navigation bar** (`nav.tsx`): the rotating service badge, the "scrolled"
  threshold, scroll-spy, link clicks and the mobile menu.

Every operation is a pure function over immutable values.

- The upstream language model is an input value, `Gemini.UpstreamReply`: what the
  model would answer if it were called.
- Clock readings are `nat` milliseconds passed in: `now` before the lookup, `setAt`
  after the upstream answer, with `now <= setAt`.
- HTTP outcomes and DOM queries are inputs too: `FetchOutcome`, a section's
  `offsetTop`, the list of `section[id]` elements.
- Pixel positions are `real`s.

The wire format between the route and the clients is modelled exactly for the bodies
the route sends (module `Json`):

- `response.text()` is `JSON.stringify` of the body.
- `response.json()` parses that text back. `Json.ParseSerialize` proves this recovers
  the body.

The route forwards any string, including `""` (`ChatRoute.EmptyMessageForwarded`).
The route answers JSON.

The event loops `FloatingChat.Run` and `ChatBox.Run` take a parameter that says how
a settled request becomes the appended assistant message:

- `Reply` reads it as each component is written;
- `ChatClient.IntendedReply` reads it in the corrected way (see "## Findings").

Both `ChatBox.Reply` and `ChatClient.IntendedReply` are `ChatClient.ReadMember`
(`data[name]` on the parsed body) with the member name `response` or `message`.

Every trace lemma is proved for every such reading, so it holds for both.

Modules: `Wrappers` (Option/Result), `JsText` (`String.prototype.trim`), `Json`,
`Gemini`, `ChatRoute`, `ChatClient` (what both chat components share),
`FloatingChat`, `ChatBox`, `Nav`.

## Model

| member | source | states |
|---|---|---|
| JsText.Trim | src/components/floating-chat.tsx:61 | `input.trim()` is never longer than the input. A non-empty result neither starts nor ends with whitespace. |
| JsText.TrimIsMaximalSlice | src/components/floating-chat.tsx:61 | `input.trim()` is a slice of the input. It neither starts nor ends with whitespace. Everything cut off around it is whitespace. |
| JsText.BlankIffAllWhitespace | src/components/chat-box.tsx:21 | `!input.trim()` holds exactly when the input is empty or all whitespace. |
| Json.Serialize | src/app/api/chat/route.ts:16-18 | The body text is `{"key":"value"}`: braces and quotes around the escaped key and value, with seven characters of punctuation. |
| Json.ParseObject | src/components/chat-box.tsx:37 | The model of `response.json()` accepts only a text that starts with `{` and ends with `}` and is at least 7 characters long. |
| Json.ParseSerialize | src/components/chat-box.tsx:37 | `response.json()` on a body the route wrote with `NextResponse.json` yields that same object. Escapes and all control characters are included. |
| Json.Lookup | src/components/chat-box.tsx:38 | Reading a member of the parsed body gives its value when the name matches, and `undefined` for any other name. |
| Gemini.GetResponse | src/lib/gemini.ts:34-86 | The upstream model is called exactly when there is no entry younger than an hour. The key set never shrinks. When text is returned, the cache afterwards maps the prompt to that text. |
| Gemini.FreshHit | src/lib/gemini.ts:37-40 | If the entry is under 3,600,000 ms old, the stored reply is returned. No upstream call is made and the cache is unchanged, whatever the upstream would have said. |
| Gemini.ExpiredEntryMisses | src/lib/gemini.ts:38 | An entry exactly 3,600,000 ms old, or older, is a miss, because the comparison is strict. The upstream is called. |
| Gemini.MissStoresAnswer | src/lib/gemini.ts:71-81 | On a miss answered upstream, the call returns the answer. The cache then maps the prompt to (answer, set time). |
| Gemini.OtherKeysUntouched | src/lib/gemini.ts:76-79 | A call changes at most its own prompt's entry. Every other key keeps its presence and its value. |
| Gemini.FailureLeavesCache | src/lib/gemini.ts:82-85 | An upstream failure is rethrown with the same error. The cache stays exactly as it was: nothing is added, and a stale entry is neither refreshed nor removed. |
| Gemini.NoNormalisation | src/lib/gemini.ts:37 | "Hello" and "hello " are independent keys. Caching one leaves the other a miss. |
| Gemini.RepeatWithinWindow | src/lib/gemini.ts:37-81 | After a successful miss, the same prompt asked within the hour gets the identical text. No upstream call is made and the cache is unchanged, whatever the upstream would now answer. |
| Gemini.RepeatAfterWindow | src/lib/gemini.ts:38 | Once the hour since storing has passed, the same prompt goes upstream again. |
| Gemini.Serve | src/lib/gemini.ts:34-86 | Serving requests one after another never loses a key. |
| Gemini.KeysOnlyGrow | src/lib/gemini.ts:76 | Over any sequence of requests, the key set only grows. It gains only prompts that were asked. |
| Gemini.UnaskedEntryKept | src/lib/gemini.ts:76-79 | An entry whose prompt is never asked keeps its value over any sequence of requests. |
| ChatRoute.Post | src/app/api/chat/route.ts:6-26 | The status is 200 or 500. It is 200 exactly when the body is `{message}`. A 500 always carries the fixed error body. An unreadable request leaves the cache untouched. |
| ChatRoute.ClientIp | src/app/api/chat/route.ts:11 | A missing or empty `x-forwarded-for` header becomes "unknown". Any other value is kept. |
| ChatRoute.Decimal | src/app/api/chat/route.ts:12 | The clock is written as a non-empty string of decimal digits. |
| ChatRoute.DecimalDenotes | src/app/api/chat/route.ts:12 | Those digits denote exactly the clock value, with no leading zero. |
| ChatRoute.RateLimitKey | src/app/api/chat/route.ts:12 | The key is the IP, a colon, then exactly `Decimal(now)`. |
| ChatRoute.SuccessForwardsReply | src/app/api/chat/route.ts:14-18 | The message reaches the gateway unmodified. The route's cache is the gateway's cache. Status 200 holds exactly when the gateway returned text, and then the body is `{message: text}`. |
| ChatRoute.FailuresAreUniform | src/app/api/chat/route.ts:19-25 | An unreadable body and a gateway error both give status 500 with `{error: "Failed to process request"}`. |
| ChatRoute.EmptyMessageForwarded | src/app/api/chat/route.ts:8-14 | There is no emptiness check: an empty message goes upstream, and its answer comes back with status 200. |
| ChatRoute.RateLimitKeyIgnored | src/app/api/chat/route.ts:11-12 | The forwarded-for header has no effect on the response or the cache. No rate limiting happens. |
| ChatRoute.HoursScenario | src/app/api/chat/route.ts:14-18 | "What are your hours?" answered "We are available 24/7." is returned. A repeat within the hour returns the same response from the cache, even with a failing upstream. |
| ChatClient.RequestCarriesInput | src/components/floating-chat.tsx:72 | The request body `JSON.stringify({message: input})` reaches the route as exactly the typed input, untrimmed. |
| ChatClient.JsonFieldOfRoute | src/components/chat-box.tsx:37-38 | Reading a member of a route response gives the value of the member the route wrote, and `undefined` for any other name. |
| ChatClient.Submit | src/components/floating-chat.tsx:59-66 | A submit is accepted exactly when the input is not blank and nothing is loading; otherwise nothing changes. Accepting appends one user message with the untrimmed input, clears the input and sets loading. The request carries the pre-clear input. |
| ChatClient.SubmitAcceptedIff | src/components/floating-chat.tsx:216 | Sending is possible exactly when nothing is loading and the input has a character that `trim` keeps. |
| ChatClient.Settle | src/components/floating-chat.tsx:84-98 | When the request settles, exactly one assistant message is appended to the unchanged list and loading ends. |
| ChatClient.ExchangeAppendsTwo | src/components/chat-box.tsx:21-49 | An accepted submit grows the list by exactly two, the user message then the assistant message. Earlier messages stay as they were, the input is cleared and loading is off. A refused submit changes nothing. |
| ChatClient.SubmitKeepsAlternating | src/components/chat-box.tsx:21-26 | The loading guard keeps the list alternating: a user message is added only when the list is even. |
| ChatClient.SettleKeepsAlternating | src/components/chat-box.tsx:39-49 | Settling an in-flight request restores an even, alternating list. |
| FloatingChat.Reply | src/components/floating-chat.tsx:75-95 | On an OK status the appended content is the raw body text, not a parsed member. On a non-OK status or a thrown error it is the fixed apology. |
| FloatingChat.ReplyShowsRawJson | src/components/floating-chat.tsx:77-87 | For every reply text, the widget as written shows the route's JSON text `{"message":"…"}`, which is never the reply itself. |
| FloatingChat.CorrectedShowsGatewayReply | src/components/floating-chat.tsx:69-95 | With the `message` member read, the widget shows exactly the gateway's text for the typed input, or the apology when the gateway threw. |
| FloatingChat.Open | src/components/floating-chat.tsx:53-57 | Opening sets `isOpen` and `hasInteracted`, hides the nudge and leaves the conversation alone. |
| FloatingChat.Close | src/components/floating-chat.tsx:143 | Closing clears only `isOpen`. `hasInteracted`, the nudge flag, the chat and `lastScrollY` are kept. |
| FloatingChat.HideNudge | src/components/floating-chat.tsx:39-41 | The five-second timer, or the dismiss button, clears the nudge. The panel, the interaction flag, the conversation and the last scroll position are kept. |
| FloatingChat.Scroll | src/components/floating-chat.tsx:27-44 | The nudge comes on exactly when all of these hold: there has been no interaction, the panel is closed, the page is scrolled past `(documentHeight - windowHeight)/2`, and the scroll is downward. Otherwise the flag is kept. The last position is recorded only when the handler does not return early. |
| FloatingChat.Type | src/components/floating-chat.tsx:210 | Typing replaces the input and nothing else changes: the messages, the loading flag, the panel, the nudge, the interaction flag and `lastScrollY` are kept. |
| FloatingChat.Step | src/components/floating-chat.tsx:59-98 | Every event keeps the earlier messages as a prefix. A settled request appends its reading's message only while loading; otherwise the widget is unchanged. |
| FloatingChat.RunKeepsAlternating | src/components/floating-chat.tsx:59-98 | Under any sequence of events, and for any reply reading (the as-written one included), messages alternate user and assistant. A dangling user message is present exactly while loading. |
| FloatingChat.MountedRunAlternates | src/components/floating-chat.tsx:17-19 | For the widget as written (raw-text replies), starting from the empty initial conversation, every reachable conversation alternates. |
| FloatingChat.NudgeNeverAfterOpen | src/components/floating-chat.tsx:28 | After an interaction, the nudge never comes back under any events, including closing the panel. |
| FloatingChat.OpenEndsNudge | src/components/floating-chat.tsx:104 | After the chat is opened, the nudge is never visible again. |
| ChatClient.ReadMember | src/components/chat-box.tsx:35-46 | A non-OK status or a thrown error gives the apology. On OK, the content is the value of the parsed body's member of the given name, or `undefined` if the body has none. The box reads it with the name `response`; the corrected reading uses `message`. |
| ChatBox.ReplyIsUndefined | src/components/chat-box.tsx:37-39 | Every successful route reply is shown as `undefined`, because the route sends `message`. |
| ChatBox.CorrectedExchangeShowsGatewayReply | src/components/chat-box.tsx:23-49 | With the `message` member read, one submit appends the typed input and then exactly the gateway's text, or the apology when the gateway threw. |
| ChatBox.Step | src/components/chat-box.tsx:19-50 | Every event keeps the earlier messages as a prefix. A settled request appends its reading's message only while loading; otherwise the box is unchanged. |
| ChatBox.RunOnlyAppends | src/components/chat-box.tsx:24 | Under any sequence of events, and for any reply reading (the as-written one included), messages are only ever appended. Each earlier list is a prefix of every later one. |
| ChatBox.RunKeepsAlternating | src/components/chat-box.tsx:21-49 | Under any sequence of events, and for any reply reading, the box's messages alternate user and assistant. The list has odd length exactly while loading. |
| ChatBox.InitialRunAlternates | src/components/chat-box.tsx:15-17 | For the box as written (`data.response` replies), starting from the empty conversation, every reachable conversation alternates. |
| Nav.Tick | src/components/nav.tsx:39-45 | The badge index advances by one and wraps from 7 to 0. The result is always a valid index into the eight services, and nothing else changes. |
| Nav.TicksRotate | src/components/nav.tsx:41 | After n ticks, the index has moved n places modulo 8. |
| Nav.BadgeCycle | src/components/nav.tsx:22-31 | Eight ticks bring the state back to where it started. |
| Nav.HandlersKeepBadge | src/components/nav.tsx:134-135 | Every handler keeps `services[serviceIndex]` in range. |
| Nav.HandleScroll | src/components/nav.tsx:47-66 | `isScrolled` is true exactly when `scrollY > 50`. The active section is scroll-spy's choice at the probe `scrollY + 0.3 * innerHeight`. The menu and the badge are untouched. |
| Nav.Spy | src/components/nav.tsx:57-65 | Visiting sections in document order, the last section with `top <= probe < top + height` becomes active. If none contains the probe, the active id is kept. |
| Nav.LastContaining | src/components/nav.tsx:62 | This is an independent description: the last index whose section contains the probe, or none. |
| Nav.SpyIsLastContaining | src/components/nav.tsx:55-65 | Scroll-spy selects exactly the id of the last containing section, or keeps the current id. |
| Nav.ScrollToSection | src/components/nav.tsx:83-97 | If the target exists, the section becomes active and the window is asked to scroll to `offsetTop - 80`. If it is missing, the state is unchanged and nothing scrolls. The menu, the scrolled flag and the badge are never touched. `preventDefault` means no fragment navigation follows. |
| Nav.MobileLink | src/components/nav.tsx:248-262 | A mobile link always closes the menu. It asks for the scroll to `offsetTop - 80` and activates the section only if the section exists. `isScrolled` and the badge are kept. The handler never calls `preventDefault`, so the anchor then navigates to `#id` whether or not the section exists. |
| Nav.MissingTargetStillCloses | src/components/nav.tsx:269-283 | A mobile link to a missing section still closes the menu and still moves the location to `#id`. It scrolls nowhere and changes nothing else. |
| Nav.MobileLinkIsDesktopPlusClose | src/components/nav.tsx:248-262 | A mobile link requests the same scroll as the desktop link and leaves the same state with the menu closed. Only the mobile link lets the fragment navigation through. |
| Nav.MobileLinkLosesOffset | src/components/nav.tsx:248-262 | With the section present, the mobile link comes to rest at the section's `offsetTop`, under the 80-pixel bar. The desktop link comes to rest at `offsetTop - 80`. |
| Nav.MobileLinkPrevented | src/components/nav.tsx:83-97 | The corrected mobile link closes the menu, then does exactly what the desktop handler does, with the default action prevented. |
| Nav.PreventedLinkIsDesktopPlusClose | src/components/nav.tsx:83-97 | The corrected mobile link equals the desktop link's outcome with `isOpen` cleared. |
| Nav.PreventedLinkClearsBar | src/components/nav.tsx:87-93 | The corrected mobile link lands where the desktop link lands: at `offsetTop - 80` when the section exists, and nowhere new when it does not. |
| Nav.MobileBook | src/components/nav.tsx:309-312 | The mobile booking button closes the menu and opens the Calendly booking page. The scrolled flag, the active section and the badge are kept, and no fragment navigation follows. |
| Nav.MobileBookIsDesktopPlusClose | src/components/nav.tsx:309-312 | The mobile booking button is the desktop one with the menu closed. |
| Nav.DesktopBook | src/components/nav.tsx:215-216 | The desktop booking button opens the Calendly booking page and leaves the state alone. |
| Nav.ToggleMenu | src/components/nav.tsx:228 | The menu button flips `isOpen` and nothing else. |
| Nav.ToggleTwice | src/components/nav.tsx:224-231 | Pressing the menu button twice restores the state. |

## Findings

| source | as written | input that shows it | evidently intended | confidence | as-written member | corrected member |
|---|---|---|---|---|---|---|
| src/components/chat-box.tsx:37-38 | The assistant content is `data.response`. | Any successful route reply, e.g. body `{"message":"Hi"}`: the appended content is `undefined`. | Read `data.message`, the member the route sends. | high; not executed | ChatBox.ReplyIsUndefined | ChatBox.CorrectedExchangeShowsGatewayReply |
| src/components/floating-chat.tsx:77-87 | The assistant content is `await response.text()`. | Any successful route reply, e.g. reply `Hi`: the widget shows `{"message":"Hi"}`. | Show the `message` member of the JSON body. | medium (a route variant answering plain text would make the code right); not executed | FloatingChat.ReplyShowsRawJson | FloatingChat.CorrectedShowsGatewayReply |
| src/components/nav.tsx:248-262 | The mobile menu's link handlers take no event and never call `preventDefault`, so the anchor's `href="#id"` navigation runs after the smooth `scrollTo(offsetTop - 80)`. | Tap "Features" in the mobile menu with the `features` section at `offsetTop` 1000: the page comes to rest at 1000, with the section's top under the 80-pixel bar, instead of at 920. | Call `e.preventDefault()` as the desktop `scrollToSection` does (nav.tsx:83-84). | medium (depends on the browser's fragment scrolling and on page CSS not shown here); not executed | Nav.MobileLinkLosesOffset | Nav.PreventedLinkClearsBar |

In the two chat rows, both corrected readings are `ChatClient.IntendedReply`. The event loops take the
reading as a parameter. Their invariants (alternation, append-only, the nudge) are
proved for every reading, so they hold for both the as-written `Reply` functions and
the corrected reading. The nav row's corrected link is `Nav.MobileLinkPrevented`.

## Left out

- The Gemini SDK (`gemini.ts:1-3`, `9-32`, `42-73`) is not modelled: client construction, `SYSTEM_CONTEXT`, model choice, generation parameters and the seed history. Only the outcome of `sendMessage` is modelled, as `UpstreamReply`.
- `console.error` logging is not modelled, because it has no effect on results.
- Concurrency is not modelled: simultaneous misses for one prompt, and lost updates on the shared map. The model is sequential.
- Gemini.GetResponse: the clock is an input. The model requires the set time to be no earlier than the lookup time, because `Date.now()` is read after the upstream call returns.
- ChatRoute.Post: the route's own `Date.now()` for the rate-limit key is taken to be the gateway's lookup time. The key is unused, so this makes no difference.
- ChatRoute.Post: a `message` that is not a string (missing, a number, an object) is not modelled. Cache keys are strings; such bodies would reach the Map and the SDK as non-string values.
- Json.ParseObject: it parses only the compact single-member objects that `JSON.stringify` writes for the route's bodies. Those are the only bodies the clients receive here.
- Json.DecodeUnicode: `\uXXXX` escapes naming surrogate code points are refused. Strings here are sequences of Unicode scalar values, so lone UTF-16 surrogates cannot occur.
- HTTP transport is not modelled: `fetch` headers, `NextResponse`, the edge runtime, and a `response.text()` or `response.json()` that fails while reading the stream. Only the outcomes are modelled: a response, or a thrown network error.
- Timers are not modelled: the nudge's `setTimeout`/`clearTimeout` becomes the explicit `NudgeHidden` event, and nav.tsx's `setInterval` becomes explicit `Tick` calls.
- FloatingChat.Scroll: the listener is set up again when `isOpen` or `hasInteracted` change, which resets `lastScrollY`. This reset is not modelled. The first such change is an opening, which sets `hasInteracted` for good. Later changes, such as closing the panel, happen when the handler already returns early (`NudgeNeverAfterOpen`).
- FloatingChat.Step: typing and submitting are accepted even while the panel is closed. In the component the form renders only when `isOpen`. This over-approximation admits more event sequences, so the trace lemmas still cover every real one.
- The `debounce` wrapper (`nav.tsx:327-337`) and the event-listener plumbing are not modelled. The model applies each handler call directly.
- Nav.HandleScroll: floating-point rounding of `scrollY + innerHeight * 0.3` and of the halfway point is not modelled. Positions are exact reals, and the `0.3 * innerHeight` offset is passed in.
- Nav.ScrollToSection: `document.getElementById` is an input (the target's `offsetTop`, if any). Smooth scrolling is reduced to the requested scroll target.
- Nav.LandsAt: where a click comes to rest is a model of the browser, not of the source. Fragment navigation runs after the click handler and brings the section's top to the top of the viewport, superseding a smooth scroll still under way. CSS `scroll-margin-top` or `scroll-padding-top`, which could restore the offset, is not modelled.
- The page-wide `section[id]` query becomes the input list of sections. The `getAttribute('id') || ''` fallback is not modelled, since a matched element always has an id attribute.
- React rendering, framer-motion animations, ReactMarkdown link rewriting, the theme toggle, and every presentational component and static configuration file are not modelled. `src/components/theme-toggle` is not part of this model.

=== FILE: chat_box.dfy ===
/**
 * The inline chat box of `src/components/chat-box.tsx`: the same conversation
 * as the floating widget, but an OK reply is read as `data.response` from the
 * parsed JSON body.
 */
module ChatBox {
  import opened Wrappers
  import opened ChatClient
  import Json
  import ChatRoute
  import Gemini

  /** The assistant message appended when the request settles, as written: the
      `response` member of the parsed body. */
  function Reply(outcome: FetchOutcome): Content
  {
    ReadMember(outcome, "response")
  }

  /** As written, every successful reply of the route is shown as `undefined`: the
      route sends a `message` member and the box reads `response`. */
  lemma ReplyIsUndefined(text: string)
    ensures Reply(Received(ChatRoute.HttpResponse(200, Json.Member("message", text)))) == Undefined
  {
    JsonFieldOfRoute(ChatRoute.HttpResponse(200, Json.Member("message", text)), "response");
  }

  /** End to end, with the corrected reply: one submit appends the typed input and
      then exactly the gateway's text, or the apology when the gateway threw. */
  lemma CorrectedExchangeShowsGatewayReply(c: Chat, cache: Gemini.Cache, now: nat, setAt: nat,
                                           upstream: Gemini.UpstreamReply)
    requires now <= setAt
    requires CanSubmit(c)
    ensures var route := ChatRoute.Post(cache, RequestOf(c.input), None, now, setAt, upstream);
            var g := Gemini.GetResponse(cache, c.input, now, setAt, upstream);
            var shown := if g.outcome.Ok? then Text(g.outcome.value) else Text(Apology);
            Exchange(c, IntendedReply(Received(route.response))).messages
              == c.messages + [Message(User, Text(c.input)), Message(Assistant, shown)]
  {
    RequestCarriesInput(c.input);
    var route := ChatRoute.Post(cache, RequestOf(c.input), None, now, setAt, upstream);
    JsonFieldOfRoute(route.response, "message");
    ExchangeAppendsTwo(c, IntendedReply(Received(route.response)));
  }

  /** The events the box reacts to; `Settled` arrives only while a request is in flight. */
  datatype Event = Typed(text: string) | Submitted | Settled(outcome: FetchOutcome)

  /** One event.  `read` is the reading of a settled request: `Reply` for the box as
      written, `IntendedReply` for the corrected one. */
  function Step(c: Chat, e: Event, read: Reading): (r: Chat)
    ensures |r.messages| >= |c.messages| && r.messages[..|c.messages|] == c.messages
    ensures e.Settled? && c.isLoading ==> r == Settle(c, read(e.outcome))
    ensures e.Settled? && !c.isLoading ==> r == c
  {
    match e
    case Typed(text) => c.(input := text)
    case Submitted => Submit(c).chat
    case Settled(outcome) => if c.isLoading then Settle(c, read(outcome)) else c
  }

  function Run(c: Chat, events: seq<Event>, read: Reading): Chat
    decreases |events|
  {
    if events == [] then c else Run(Step(c, events[0], read), events[1..], read)
  }

  /** Messages are only ever appended, however replies are read: every earlier
      state's list is a prefix of every later one. */
  lemma {:induction false} RunOnlyAppends(c: Chat, events: seq<Event>, read: Reading)
    ensures |Run(c, events, read).messages| >= |c.messages|
    ensures Run(c, events, read).messages[..|c.messages|] == c.messages
    decreases |events|
  {
    if events != [] {
      var next := Step(c, events[0], read);
      RunOnlyAppends(next, events[1..], read);
      var last := Run(next, events[1..], read).messages;
      assert last[..|next.messages|][..|c.messages|] == last[..|c.messages|];
    }
  }

  /** The box's conversation alternates user and assistant messages whatever happens,
      however replies are read. */
  lemma {:induction false} RunKeepsAlternating(c: Chat, events: seq<Event>, read: Reading)
    requires Alternating(c)
    ensures Alternating(Run(c, events, read))
    decreases |events|
  {
    if events != [] {
      match events[0] {
        case Submitted => SubmitKeepsAlternating(c);
        case Settled(o) => if c.isLoading { SettleKeepsAlternating(c, read(o)); }
        case Typed(_) =>
      }
      RunKeepsAlternating(Step(c, events[0], read), events[1..], read);
    }
  }

  /** The box as written, from its empty first render: every reachable conversation
      alternates. */
  lemma InitialRunAlternates(events: seq<Event>)
    ensures Alternating(Run(Chat([], [], false), events, Reply))
  {
    RunKeepsAlternating(Chat([], [], false), events, Reply);
  }
}

=== FILE: chat_client.dfy ===
/**
 * What the two chat components (`floating-chat.tsx` and `chat-box.tsx`) share:
 * the message list, the guarded submit, the reply appended when the request
 * settles, and the HTTP exchange with `POST /api/chat`.
 */
module ChatClient {
  import opened Wrappers
  import JsText
  import Json
  import ChatRoute

  datatype Role = User | Assistant

  /** A message's `content` as it exists at run time: the declared `string` type is
      not enforced, so reading a missing JSON member yields `undefined`. */
  datatype Content = Text(text: string) | Undefined

  datatype Message = Message(role: Role, content: Content)

  /** The conversation state both components keep: `messages`, `input`, `isLoading`. */
  datatype Chat = Chat(messages: seq<Message>, input: string, isLoading: bool)

  /** The text appended when a request fails. */
  const Apology := "Sorry, I encountered an error. Please try again."

  /** What `await fetch('/api/chat', …)` settles to: a response of the route, or a
      thrown network error. */
  datatype FetchOutcome = Received(response: ChatRoute.HttpResponse) | NetworkError

  /** `response.ok`. */
  predicate IsOk(status: nat)
  {
    200 <= status <= 299
  }

  /** The request body `JSON.stringify({ message: input })`, as the route's
      `const { message } = await req.json()` reads it back. */
  function RequestOf(input: string): ChatRoute.RequestBody
  {
    match Json.ParseObject(Json.Serialize(Json.Member("message", input)))
    case Some(m) => if m.key == "message" then ChatRoute.Fields(m.value) else ChatRoute.Malformed
    case None => ChatRoute.Malformed
  }

  /** The route receives the input exactly as typed: no trimming, no check. */
  lemma RequestCarriesInput(input: string)
    ensures RequestOf(input) == ChatRoute.Fields(input)
  {
    Json.ParseSerialize(Json.Member("message", input));
  }

  /** `await response.text()`. */
  function BodyText(r: ChatRoute.HttpResponse): string
  {
    Json.Serialize(r.body)
  }

  /** `(await response.json())[name]`; `None` when `json()` throws. */
  function JsonField(r: ChatRoute.HttpResponse, name: string): Option<Content>
  {
    match Json.ParseObject(BodyText(r))
    case None => None
    case Some(m) =>
      match Json.Lookup(m, name)
      case Some(v) => Some(Text(v))
      case None => Some(Undefined)
  }

  /** Reading a member of a route response gives its value for the member the route
      wrote and `undefined` for any other name. */
  lemma JsonFieldOfRoute(r: ChatRoute.HttpResponse, name: string)
    ensures JsonField(r, name) == Some(if r.body.key == name then Text(r.body.value) else Undefined)
  {
    Json.ParseSerialize(r.body);
  }

  /** The assistant message appended when a request settles, read as
      `data[name]` from the parsed body: the apology on a non-OK status, a thrown
      error or a body `json()` cannot parse; otherwise the member's value, or
      `undefined` when the body has no member of that name. */
  function ReadMember(outcome: FetchOutcome, name: string): (c: Content)
    ensures outcome.NetworkError? || !IsOk(outcome.response.status) ==> c == Text(Apology)
    ensures outcome.Received? && IsOk(outcome.response.status) ==>
              c == (if outcome.response.body.key == name then Text(outcome.response.body.value) else Undefined)
  {
    match outcome
    case NetworkError => Text(Apology)
    case Received(r) =>
      if !IsOk(r.status) then Text(Apology)
      else
        JsonFieldOfRoute(r, name);
        match JsonField(r, name)
        case Some(c) => c
        case None => Text(Apology)
  }

  /** The reading the components evidently mean: the `message` member the route sends. */
  function IntendedReply(outcome: FetchOutcome): Content
  {
    ReadMember(outcome, "message")
  }

  /** How a component turns a settled request into the assistant message it appends. */
  type Reading = FetchOutcome -> Content

  /** The guard of `handleSubmit` (and of the disabled send button): a blank input or
      a request in flight makes submitting a no-op. */
  predicate CanSubmit(c: Chat)
  {
    !JsText.IsBlank(c.input) && !c.isLoading
  }

  /** The result of the synchronous part of `handleSubmit`: the new state and, when
      the submit was accepted, the message text put in the request body. */
  datatype Submission = Submission(chat: Chat, request: Option<string>)

  /** `handleSubmit` up to the `fetch`: append the user's message, clear the input,
      set loading; the request still carries the input as it was before clearing. */
  function Submit(c: Chat): (r: Submission)
    ensures r.request.Some? <==> CanSubmit(c)
    ensures r.request.None? ==> r.chat == c
    ensures r.request.Some? ==>
              && r.request.value == c.input
              && r.chat.input == [] && r.chat.isLoading
              && |r.chat.messages| == |c.messages| + 1
              && r.chat.messages[..|c.messages|] == c.messages
              && r.chat.messages[|c.messages|] == Message(User, Text(c.input))
  {
    if !CanSubmit(c) then Submission(c, None)
    else Submission(Chat(c.messages + [Message(User, Text(c.input))], [], true), Some(c.input))
  }

  /** A submit is accepted exactly when nothing is in flight and the input holds a
      character `trim` would keep. */
  lemma SubmitAcceptedIff(c: Chat)
    ensures Submit(c).request.Some? <==> !c.isLoading && exists i :: 0 <= i < |c.input| && !JsText.IsWhitespace(c.input[i])
  {
    JsText.BlankIffAllWhitespace(c.input);
  }

  /** The `try`/`catch`/`finally` after the `fetch`: exactly one assistant message is
      appended and loading ends, whatever the outcome. */
  function Settle(c: Chat, reply: Content): (r: Chat)
    ensures !r.isLoading && r.input == c.input
    ensures r.messages == c.messages + [Message(Assistant, reply)]
  {
    c.(messages := c.messages + [Message(Assistant, reply)], isLoading := false)
  }

  /** A whole submit with no other event while the request is in flight. */
  function Exchange(c: Chat, reply: Content): Chat
  {
    var s := Submit(c);
    if s.request.Some? then Settle(s.chat, reply) else c
  }

  /** An accepted submit grows the list by exactly two, user then assistant, never
      alters earlier messages, and leaves loading off; a refused one changes nothing. */
  lemma ExchangeAppendsTwo(c: Chat, reply: Content)
    ensures var r := Exchange(c, reply);
            if CanSubmit(c) then
              && r.messages == c.messages + [Message(User, Text(c.input)), Message(Assistant, reply)]
              && r.input == [] && !r.isLoading
            else r == c
  {
  }

  /** The shape of a conversation: messages alternate user, assistant, user, …, and
      the list has odd length exactly while a request is in flight. */
  predicate Alternating(c: Chat)
  {
    && |c.messages| % 2 == (if c.isLoading then 1 else 0)
    && forall i :: 0 <= i < |c.messages| ==> c.messages[i].role == (if i % 2 == 0 then User else Assistant)
  }

  /** Submitting keeps the conversation alternating. */
  lemma SubmitKeepsAlternating(c: Chat)
    requires Alternating(c)
    ensures Alternating(Submit(c).chat)
  {
  }

  /** Settling an in-flight request keeps the conversation alternating. */
  lemma SettleKeepsAlternating(c: Chat, reply: Content)
    requires Alternating(c) && c.isLoading
    ensures Alternating(Settle(c, reply))
  {
  }
}

=== FILE: chat_route.dfy ===
/**
 * The `POST /api/chat` handler of `src/app/api/chat/route.ts`: it reads
 * `{ message }` from the JSON body, asks the gateway, and answers
 * `{ message: reply }` (status 200) or `{ error: "Failed to process request" }`
 * with status 500 on any thrown error.
 */
module ChatRoute {
  import opened Wrappers
  import Json
  import Gemini

  /** The request body as `await req.json()` and `const { message } = …` see it:
      `Malformed` when the text is not JSON or cannot be destructured (`null`). */
  datatype RequestBody = Malformed | Fields(message: string)

  /** A `NextResponse.json(body, { status })`. */
  datatype HttpResponse = HttpResponse(status: nat, body: Json.Member)

  /** `NextResponse.json`'s default status. */
  const StatusOk: nat := 200
  const StatusServerError: nat := 500
  const ErrorText := "Failed to process request"

  /** The route's answer together with the gateway cache after the request. */
  datatype RouteStep = RouteStep(response: HttpResponse, cache: Gemini.Cache)

  /** `req.headers.get('x-forwarded-for') || 'unknown'`: a missing or empty header is 'unknown'. */
  function ClientIp(forwardedFor: Option<string>): (ip: string)
    ensures ip != []
    ensures forwardedFor.Some? && forwardedFor.value != [] ==> ip == forwardedFor.value
    ensures forwardedFor.None? || forwardedFor.value == [] ==> ip == "unknown"
  {
    match forwardedFor
    case Some(h) => if h != [] then h else "unknown"
    case None => "unknown"
  }

  /** The decimal digits of `n`, as a template literal writes an integer. */
  function Decimal(n: nat): (r: string)
    ensures |r| >= 1
    ensures forall i :: 0 <= i < |r| ==> '0' <= r[i] <= '9'
  {
    if n < 10 then [(48 + n) as char] else Decimal(n / 10) + [(48 + n % 10) as char]
  }

  /** The number a string of decimal digits denotes. */
  function DigitsValue(s: string): nat
    requires forall i :: 0 <= i < |s| ==> '0' <= s[i] <= '9'
  {
    if s == [] then 0 else 10 * DigitsValue(s[..|s| - 1]) + (s[|s| - 1] as int - 48)
  }

  /** `Decimal` writes exactly the digits of `n`, most significant first, with no
      leading zero. */
  lemma {:induction false} DecimalDenotes(n: nat)
    ensures DigitsValue(Decimal(n)) == n
    ensures |Decimal(n)| > 1 ==> Decimal(n)[0] != '0'
  {
    if n >= 10 {
      DecimalDenotes(n / 10);
      var d := Decimal(n);
      assert d[..|d| - 1] == Decimal(n / 10);
    }
  }

  /** `${userIP}:${Date.now()}`: computed by the handler and never used. */
  function RateLimitKey(ip: string, now: nat): (key: string)
    ensures |key| > |ip| + 1 && key[..|ip|] == ip && key[|ip|] == ':'
    ensures key[|ip| + 1..] == Decimal(now)
  {
    ip + ":" + Decimal(now)
  }

  /** The failure answer, used for every thrown error. */
  function ErrorResponse(): HttpResponse
  {
    HttpResponse(StatusServerError, Json.Member("error", ErrorText))
  }

  /** `POST(req)`.  `now` is the clock at the gateway lookup (the handler's own
      `Date.now()` only feeds the unused rate-limit key), `setAt` the clock after the
      upstream answer. */
  function Post(cache: Gemini.Cache, body: RequestBody, forwardedFor: Option<string>,
                now: nat, setAt: nat, upstream: Gemini.UpstreamReply): (r: RouteStep)
    requires now <= setAt
    ensures r.response.status == StatusOk || r.response.status == StatusServerError
    ensures r.response.status == StatusOk <==> r.response.body.key == "message"
    ensures r.response.status == StatusServerError ==> r.response == ErrorResponse()
    ensures body.Malformed? ==> r.cache == cache
  {
    match body
    case Malformed => RouteStep(ErrorResponse(), cache)
    case Fields(message) =>
      var rateLimitKey := RateLimitKey(ClientIp(forwardedFor), now);
      var s := Gemini.GetResponse(cache, message, now, setAt, upstream);
      match s.outcome
      case Ok(text) => RouteStep(HttpResponse(StatusOk, Json.Member("message", text)), s.cache)
      case Err(_) => RouteStep(ErrorResponse(), s.cache)
  }

  /** The message is handed to the gateway as it arrived, and the gateway's reply
      comes back as `{ message: reply }` with the default status. */
  lemma SuccessForwardsReply(cache: Gemini.Cache, message: string, forwardedFor: Option<string>,
                             now: nat, setAt: nat, upstream: Gemini.UpstreamReply)
    requires now <= setAt
    ensures var g := Gemini.GetResponse(cache, message, now, setAt, upstream);
            var r := Post(cache, Fields(message), forwardedFor, now, setAt, upstream);
            && r.cache == g.cache
            && (g.outcome.Ok? <==> r.response.status == 200)
            && (g.outcome.Ok? ==> r.response.body == Json.Member("message", g.outcome.value))
  {
  }

  /** Every failure, an unreadable body or an error thrown by the gateway, is status
      500 with the fixed `{ error: "Failed to process request" }` body. */
  lemma FailuresAreUniform(cache: Gemini.Cache, body: RequestBody, forwardedFor: Option<string>,
                           now: nat, setAt: nat, upstream: Gemini.UpstreamReply)
    requires now <= setAt
    requires body.Malformed? || Gemini.GetResponse(cache, body.message, now, setAt, upstream).outcome.Err?
    ensures Post(cache, body, forwardedFor, now, setAt, upstream).response
         == HttpResponse(500, Json.Member("error", "Failed to process request"))
  {
  }

  /** There is no emptiness or type check: an empty message goes upstream like any other. */
  lemma EmptyMessageForwarded(cache: Gemini.Cache, now: nat, setAt: nat, text: string)
    requires now <= setAt
    requires "" !in cache
    ensures Post(cache, Fields(""), None, now, setAt, Gemini.Answered(text)).response
         == HttpResponse(200, Json.Member("message", text))
  {
  }

  /** The computed rate-limit key has no effect: no rate limiting takes place. */
  lemma RateLimitKeyIgnored(cache: Gemini.Cache, body: RequestBody, h1: Option<string>, h2: Option<string>,
                            now: nat, setAt: nat, upstream: Gemini.UpstreamReply)
    requires now <= setAt
    ensures Post(cache, body, h1, now, setAt, upstream) == Post(cache, body, h2, now, setAt, upstream)
  {
  }

  /** A request for "What are your hours?" answered "We are available 24/7." is
      served, and repeating it within the hour returns the same text from the cache
      even though the upstream would now fail. */
  lemma HoursScenario(t1: nat, s1: nat, t2: nat, s2: nat)
    requires t1 <= s1 && t2 <= s2 && t2 - s1 < 3600000
    ensures var first := Post(map[], Fields("What are your hours?"), None, t1, s1,
                              Gemini.Answered("We are available 24/7."));
            var again := Post(first.cache, Fields("What are your hours?"), Some("10.0.0.7"), t2, s2,
                              Gemini.Failed("quota exceeded"));
            && first.response == HttpResponse(200, Json.Member("message", "We are available 24/7."))
            && again.response == first.response
            && again.cache == first.cache
  {
  }
}

=== FILE: floating_chat.dfy ===
/**
 * The floating chat widget of `src/components/floating-chat.tsx`: the chat
 * panel, its open/close button, and the "Need help?" nudge shown once the
 * visitor has scrolled halfway down the page.
 */
module FloatingChat {
  import opened Wrappers
  import opened ChatClient
  import Json
  import ChatRoute
  import Gemini

  /** The component's state.  `lastScrollY` is the scroll listener's closure variable;
      the listener is set up again, with `lastScrollY` reset, only when `isOpen` or
      `hasInteracted` change, and from then on it returns early (`NudgeNeverAfterOpen`). */
  datatype Widget = Widget(chat: Chat, isOpen: bool, showNotification: bool,
                           hasInteracted: bool, lastScrollY: real)

  /** The first render, with the page scrolled to `scrollY`. */
  function Mount(scrollY: real): Widget
  {
    Widget(Chat([], [], false), false, false, false, scrollY)
  }

  /** The nudge is on screen: `showNotification && !isOpen`. */
  predicate NudgeVisible(w: Widget)
  {
    w.showNotification && !w.isOpen
  }

  /** The assistant message appended when the request settles, as written: the raw
      body text on an OK response, the apology on a non-OK status or a thrown error. */
  function Reply(outcome: FetchOutcome): (c: Content)
    ensures outcome.Received? && IsOk(outcome.response.status) ==> c == Text(BodyText(outcome.response))
    ensures outcome.NetworkError? || !IsOk(outcome.response.status) ==> c == Text(Apology)
  {
    match outcome
    case NetworkError => Text(Apology)
    case Received(r) => if IsOk(r.status) then Text(BodyText(r)) else Text(Apology)
  }

  /** As written, a successful reply is displayed as the JSON text the route sends,
      `{"message":"…"}`, which is never the reply itself. */
  lemma ReplyShowsRawJson(text: string)
    ensures var c := Reply(Received(ChatRoute.HttpResponse(200, Json.Member("message", text))));
            && c == Text(Json.Serialize(Json.Member("message", text)))
            && c != Text(text)
  {
    var t := Json.Serialize(Json.Member("message", text));
    assert |t| >= |text| + 7;
  }

  /** End to end, with the corrected reply: the widget shows exactly the text the
      gateway produced for the typed input, or the apology when the gateway threw. */
  lemma CorrectedShowsGatewayReply(input: string, cache: Gemini.Cache, now: nat, setAt: nat,
                                   upstream: Gemini.UpstreamReply, forwardedFor: Option<string>)
    requires now <= setAt
    ensures var route := ChatRoute.Post(cache, RequestOf(input), forwardedFor, now, setAt, upstream);
            var g := Gemini.GetResponse(cache, input, now, setAt, upstream);
            IntendedReply(Received(route.response))
              == (if g.outcome.Ok? then Text(g.outcome.value) else Text(Apology))
  {
    RequestCarriesInput(input);
    var route := ChatRoute.Post(cache, RequestOf(input), forwardedFor, now, setAt, upstream);
    JsonFieldOfRoute(route.response, "message");
  }

  /** `handleChatOpen`: open the panel, hide the nudge, remember the interaction. */
  function Open(w: Widget): (r: Widget)
    ensures r.isOpen && r.hasInteracted && !NudgeVisible(r) && !r.showNotification
    ensures r.chat == w.chat && r.lastScrollY == w.lastScrollY
  {
    w.(isOpen := true, showNotification := false, hasInteracted := true)
  }

  /** The panel's close button: only `isOpen` changes, so the interaction is remembered. */
  function Close(w: Widget): (r: Widget)
    ensures !r.isOpen && r.hasInteracted == w.hasInteracted && r.showNotification == w.showNotification
    ensures r.chat == w.chat && r.lastScrollY == w.lastScrollY
  {
    w.(isOpen := false)
  }

  /** The nudge's dismiss button, or its five-second timer firing. */
  function HideNudge(w: Widget): (r: Widget)
    ensures !r.showNotification && r.isOpen == w.isOpen && r.hasInteracted == w.hasInteracted
    ensures r.chat == w.chat && r.lastScrollY == w.lastScrollY
  {
    w.(showNotification := false)
  }

  /** The scroll listener.  It returns at once after an interaction or while open;
      otherwise it shows the nudge when the page is scrolled past half its scrollable
      height while moving down, and records the position. */
  function Scroll(w: Widget, scrollY: real, windowHeight: real, documentHeight: real): (r: Widget)
    ensures r.showNotification <==>
              w.showNotification
              || (&& !w.hasInteracted && !w.isOpen
                  && scrollY > (documentHeight - windowHeight) / 2.0
                  && scrollY > w.lastScrollY)
    ensures r.lastScrollY == (if w.hasInteracted || w.isOpen then w.lastScrollY else scrollY)
    ensures r.chat == w.chat && r.isOpen == w.isOpen && r.hasInteracted == w.hasInteracted
  {
    if w.hasInteracted || w.isOpen then w
    else
      var halfwayPoint := (documentHeight - windowHeight) / 2.0;
      var shown := if scrollY > halfwayPoint && scrollY > w.lastScrollY then true else w.showNotification;
      w.(showNotification := shown, lastScrollY := scrollY)
  }

  /** The input box's `onChange`. */
  function Type(w: Widget, text: string): (r: Widget)
    ensures r.chat.input == text && r.chat.messages == w.chat.messages && r.chat.isLoading == w.chat.isLoading
    ensures r.isOpen == w.isOpen && r.showNotification == w.showNotification
    ensures r.hasInteracted == w.hasInteracted && r.lastScrollY == w.lastScrollY
  {
    w.(chat := w.chat.(input := text))
  }

  /** The events the widget reacts to.  `Settled` is the completion of the request an
      accepted submit started; it can only arrive while that request is in flight. */
  datatype Event =
    | Typed(text: string)
    | Submitted
    | Settled(outcome: FetchOutcome)
    | OpenClicked
    | CloseClicked
    | Scrolled(scrollY: real, windowHeight: real, documentHeight: real)
    | NudgeHidden

  /** One event.  `read` is the reading of a settled request: `Reply` for the widget
      as written, `IntendedReply` for the corrected one. */
  function Step(w: Widget, e: Event, read: Reading): (r: Widget)
    ensures |r.chat.messages| >= |w.chat.messages| && r.chat.messages[..|w.chat.messages|] == w.chat.messages
    ensures e.Settled? && w.chat.isLoading ==> r.chat == Settle(w.chat, read(e.outcome))
    ensures e.Settled? && !w.chat.isLoading ==> r == w
  {
    match e
    case Typed(text) => Type(w, text)
    case Submitted => w.(chat := Submit(w.chat).chat)
    case Settled(outcome) => if w.chat.isLoading then w.(chat := Settle(w.chat, read(outcome))) else w
    case OpenClicked => Open(w)
    case CloseClicked => Close(w)
    case Scrolled(y, wh, dh) => Scroll(w, y, wh, dh)
    case NudgeHidden => HideNudge(w)
  }

  function Run(w: Widget, events: seq<Event>, read: Reading): Widget
    decreases |events|
  {
    if events == [] then w else Run(Step(w, events[0], read), events[1..], read)
  }

  /** Whatever the visitor does, and however a reply is read, the conversation keeps
      alternating user and assistant messages, with a dangling user message exactly
      while loading. */
  lemma {:induction false} RunKeepsAlternating(w: Widget, events: seq<Event>, read: Reading)
    requires Alternating(w.chat)
    ensures Alternating(Run(w, events, read).chat)
    decreases |events|
  {
    if events != [] {
      var e := events[0];
      match e {
        case Submitted => SubmitKeepsAlternating(w.chat);
        case Settled(o) => if w.chat.isLoading { SettleKeepsAlternating(w.chat, read(o)); }
        case _ =>
      }
      RunKeepsAlternating(Step(w, e, read), events[1..], read);
    }
  }

  /** The widget as written, from its first render: every reachable conversation
      alternates. */
  lemma MountedRunAlternates(scrollY: real, events: seq<Event>)
    ensures Alternating(Run(Mount(scrollY), events, Reply).chat)
  {
    RunKeepsAlternating(Mount(scrollY), events, Reply);
  }

  /** Once the chat has been opened the nudge never shows again, whether the panel is
      later closed or not, and the interaction is never forgotten. */
  lemma {:induction false} NudgeNeverAfterOpen(w: Widget, events: seq<Event>, read: Reading)
    requires w.hasInteracted && !w.showNotification
    ensures Run(w, events, read).hasInteracted && !Run(w, events, read).showNotification
    decreases |events|
  {
    if events != [] {
      NudgeNeverAfterOpen(Step(w, events[0], read), events[1..], read);
    }
  }

  /** Opening the chat ends the nudge for good. */
  lemma OpenEndsNudge(w: Widget, events: seq<Event>, read: Reading)
    ensures !NudgeVisible(Run(Open(w), events, read)) && Run(Open(w), events, read).hasInteracted
  {
    NudgeNeverAfterOpen(Open(w), events, read);
  }
}

=== FILE: gemini.dfy ===
/**
 * The chat gateway of `src/lib/gemini.ts`: a process-wide map from the verbatim
 * prompt to the last reply and the time it was stored, consulted before the
 * upstream language model is asked.  Staleness is checked lazily at lookup; no
 * entry is ever removed.
 *
 * The upstream call is an oracle: `UpstreamReply` is what the model would answer
 * if it were asked.  Time is milliseconds since the epoch; `now` is read before
 * the lookup and `setAt` after the upstream call returns.
 */
module Gemini {
  import opened Wrappers

  /** One hour, in milliseconds. */
  const CacheDuration: nat := 1000 * 60 * 60

  /** A cached reply and the `Date.now()` at which it was stored. */
  datatype Entry = Entry(response: string, timestamp: nat)

  /** The response cache, keyed by the prompt exactly as received. */
  type Cache = map<string, Entry>

  /** What the upstream model does when called: answers with a text or throws. */
  datatype UpstreamReply = Answered(text: string) | Failed(reason: string)

  /** The state after one `getGeminiResponse` call: what it returned or rethrew, the
      cache afterwards, and whether the upstream model was called. */
  datatype Step = Step(outcome: Result<string, string>, cache: Cache, calledUpstream: bool)

  /** The age test of the lookup, on JavaScript numbers: `now - timestamp < CACHE_DURATION`.
      A timestamp later than `now` gives a negative age, which counts as fresh. */
  predicate IsFresh(e: Entry, now: nat)
  {
    now - e.timestamp < CacheDuration
  }

  /** The cache answers `prompt` at time `now` without asking upstream. */
  predicate Hit(cache: Cache, prompt: string, now: nat)
  {
    prompt in cache && IsFresh(cache[prompt], now)
  }

  /** `getGeminiResponse(prompt)`. */
  function GetResponse(cache: Cache, prompt: string, now: nat, setAt: nat, upstream: UpstreamReply): (s: Step)
    requires now <= setAt
    ensures s.calledUpstream <==> !Hit(cache, prompt, now)
    ensures s.cache.Keys >= cache.Keys
    ensures s.outcome.Ok? ==> prompt in s.cache && s.cache[prompt].response == s.outcome.value
  {
    if Hit(cache, prompt, now) then
      Step(Ok(cache[prompt].response), cache, false)
    else
      match upstream
      case Answered(text) => Step(Ok(text), cache[prompt := Entry(text, setAt)], true)
      case Failed(reason) => Step(Err(reason), cache, true)
  }

  /** A lookup whose entry is younger than an hour returns the stored reply, asks
      nobody and changes nothing, whatever the upstream would have said. */
  lemma FreshHit(cache: Cache, prompt: string, now: nat, setAt: nat, upstream: UpstreamReply)
    requires now <= setAt
    requires prompt in cache && now - cache[prompt].timestamp < 3600000
    ensures GetResponse(cache, prompt, now, setAt, upstream)
         == Step(Ok(cache[prompt].response), cache, false)
  {
  }

  /** An entry exactly one hour old or older is a miss: the comparison is strict. */
  lemma ExpiredEntryMisses(cache: Cache, prompt: string, now: nat, setAt: nat, upstream: UpstreamReply)
    requires now <= setAt
    requires prompt in cache && now - cache[prompt].timestamp >= 3600000
    ensures GetResponse(cache, prompt, now, setAt, upstream).calledUpstream
  {
  }

  /** A miss answered upstream returns the answer and stores it with the set time. */
  lemma MissStoresAnswer(cache: Cache, prompt: string, now: nat, setAt: nat, text: string)
    requires now <= setAt
    requires !Hit(cache, prompt, now)
    ensures var s := GetResponse(cache, prompt, now, setAt, Answered(text));
            && s.outcome == Ok(text)
            && prompt in s.cache && s.cache[prompt] == Entry(text, setAt)
  {
  }

  /** A call changes at most the entry of its own prompt. */
  lemma OtherKeysUntouched(cache: Cache, prompt: string, now: nat, setAt: nat, upstream: UpstreamReply, other: string)
    requires now <= setAt
    requires other != prompt
    ensures var s := GetResponse(cache, prompt, now, setAt, upstream);
            && (other in s.cache <==> other in cache)
            && (other in cache ==> s.cache[other] == cache[other])
  {
  }

  /** A failing upstream call is rethrown unchanged and leaves the cache exactly as
      it was: no entry is added, and a stale entry is neither refreshed nor removed. */
  lemma FailureLeavesCache(cache: Cache, prompt: string, now: nat, setAt: nat, reason: string)
    requires now <= setAt
    requires !Hit(cache, prompt, now)
    ensures GetResponse(cache, prompt, now, setAt, Failed(reason)) == Step(Err(reason), cache, true)
  {
  }

  /** Prompts are not normalised: "Hello" and "hello " get independent entries. */
  lemma NoNormalisation(now: nat, setAt: nat)
    requires now <= setAt
    ensures var s := GetResponse(map[], "Hello", now, setAt, Answered("Hi!"));
            && "hello " !in s.cache
            && GetResponse(s.cache, "hello ", setAt, setAt, Failed("quota")).calledUpstream
  {
    var s := GetResponse(map[], "Hello", now, setAt, Answered("Hi!"));
    assert s.cache == map["Hello" := Entry("Hi!", setAt)];
    assert "hello " != "Hello";
  }

  /** Asking the same prompt again within the hour after a successful miss makes no
      upstream call and returns the identical text, whatever upstream would now say. */
  lemma RepeatWithinWindow(cache: Cache, prompt: string, t1: nat, s1: nat, text: string,
                           t2: nat, s2: nat, second: UpstreamReply)
    requires t1 <= s1 && t2 <= s2
    requires !Hit(cache, prompt, t1)
    requires t2 - s1 < CacheDuration
    ensures var first := GetResponse(cache, prompt, t1, s1, Answered(text));
            var again := GetResponse(first.cache, prompt, t2, s2, second);
            && first.outcome == Ok(text)
            && again == Step(Ok(text), first.cache, false)
  {
  }

  /** After the hour has passed, the same prompt goes upstream again. */
  lemma RepeatAfterWindow(cache: Cache, prompt: string, t1: nat, s1: nat, text: string,
                          t2: nat, s2: nat, second: UpstreamReply)
    requires t1 <= s1 && t2 <= s2
    requires !Hit(cache, prompt, t1)
    requires t2 - s1 >= CacheDuration
    ensures var first := GetResponse(cache, prompt, t1, s1, Answered(text));
            GetResponse(first.cache, prompt, t2, s2, second).calledUpstream
  {
  }

  /** One call of a sequential request history. */
  datatype Call = Call(prompt: string, now: nat, setAt: nat, upstream: UpstreamReply)

  /** The clock is read before the upstream call and again after it. */
  predicate ClockOrdered(calls: seq<Call>)
  {
    forall i :: 0 <= i < |calls| ==> calls[i].now <= calls[i].setAt
  }

  /** The cache after serving `calls` one after another. */
  function Serve(cache: Cache, calls: seq<Call>): (r: Cache)
    requires ClockOrdered(calls)
    ensures cache.Keys <= r.Keys
    decreases |calls|
  {
    if calls == [] then cache
    else
      var c := calls[0];
      Serve(GetResponse(cache, c.prompt, c.now, c.setAt, c.upstream).cache, calls[1..])
  }

  /** The prompts of a history. */
  function Prompts(calls: seq<Call>): set<string>
  {
    set i | 0 <= i < |calls| :: calls[i].prompt
  }

  /** Nothing ever deletes an entry: over any history the key set only grows, and
      it grows only by prompts that were asked. */
  lemma {:induction false} KeysOnlyGrow(cache: Cache, calls: seq<Call>)
    requires ClockOrdered(calls)
    ensures cache.Keys <= Serve(cache, calls).Keys <= cache.Keys + Prompts(calls)
    decreases |calls|
  {
    if calls != [] {
      var c := calls[0];
      var next := GetResponse(cache, c.prompt, c.now, c.setAt, c.upstream).cache;
      KeysOnlyGrow(next, calls[1..]);
      assert Prompts(calls) == {c.prompt} + Prompts(calls[1..]) by {
        forall p | p in Prompts(calls) ensures p in {c.prompt} + Prompts(calls[1..]) {
          var i :| 0 <= i < |calls| && calls[i].prompt == p;
          if i > 0 { assert calls[1..][i - 1].prompt == p; }
        }
      }
    }
  }

  /** An entry whose prompt is never asked keeps its value over any history. */
  lemma {:induction false} UnaskedEntryKept(cache: Cache, calls: seq<Call>, p: string)
    requires ClockOrdered(calls)
    requires p in cache && p !in Prompts(calls)
    ensures p in Serve(cache, calls) && Serve(cache, calls)[p] == cache[p]
    decreases |calls|
  {
    if calls != [] {
      var c := calls[0];
      assert c.prompt == calls[0].prompt;
      var next := GetResponse(cache, c.prompt, c.now, c.setAt, c.upstream).cache;
      OtherKeysUntouched(cache, c.prompt, c.now, c.setAt, c.upstream, p);
      assert Prompts(calls[1..]) <= Prompts(calls) by {
        forall q | q in Prompts(calls[1..]) ensures q in Prompts(calls) {
          var i :| 0 <= i < |calls[1..]| && calls[1..][i].prompt == q;
          assert calls[i + 1].prompt == q;
        }
      }
      UnaskedEntryKept(next, calls[1..], p);
    }
  }
}

=== FILE: js_text.dfy ===
/**
 * JavaScript's `String.prototype.trim`, which both chat widgets use to decide
 * whether the input box is blank.  Characters are Unicode scalar values.
 */
module JsText {

  /** The characters `trim` removes: ECMAScript WhiteSpace and LineTerminator code points. */
  predicate IsWhitespace(c: char)
  {
    || c == '\t' || c == '\n' || c == 0x0B as char || c == 0x0C as char || c == '\r'
    || c == ' ' || c == 0xA0 as char || c == 0x1680 as char
    || (0x2000 <= c as int <= 0x200A)
    || c == 0x2028 as char || c == 0x2029 as char || c == 0x202F as char
    || c == 0x205F as char || c == 0x3000 as char || c == 0xFEFF as char
  }

  /** Every character of `s` is whitespace. */
  ghost predicate AllWhitespace(s: string)
  {
    forall i :: 0 <= i < |s| ==> IsWhitespace(s[i])
  }

  /** Drops the leading whitespace of `s`. */
  function TrimStart(s: string): (r: string)
    ensures |r| <= |s| && r == s[|s| - |r|..]
    ensures AllWhitespace(s[..|s| - |r|])
    ensures |r| > 0 ==> !IsWhitespace(r[0])
  {
    if |s| > 0 && IsWhitespace(s[0]) then TrimStart(s[1..]) else s
  }

  /** Drops the trailing whitespace of `s`. */
  function TrimEnd(s: string): (r: string)
    ensures |r| <= |s| && r == s[..|r|]
    ensures AllWhitespace(s[|r|..])
    ensures |r| > 0 ==> !IsWhitespace(r[|r| - 1])
  {
    if |s| > 0 && IsWhitespace(s[|s| - 1]) then TrimEnd(s[..|s| - 1]) else s
  }

  /** `s.trim()`. */
  function Trim(s: string): (r: string)
    ensures |r| <= |s|
    ensures |r| > 0 ==> !IsWhitespace(r[0]) && !IsWhitespace(r[|r| - 1])
  {
    TrimEnd(TrimStart(s))
  }

  /** `!s.trim()`: the trimmed string is the empty (falsy) string. */
  predicate IsBlank(s: string)
  {
    Trim(s) == []
  }

  /** The trimmed text is a slice of the input that neither starts nor ends with whitespace,
      and everything cut off around it is whitespace. */
  lemma TrimIsMaximalSlice(s: string)
    ensures exists lo, hi ::
              && 0 <= lo <= hi <= |s| && Trim(s) == s[lo..hi]
              && AllWhitespace(s[..lo]) && AllWhitespace(s[hi..])
    ensures |Trim(s)| > 0 ==> !IsWhitespace(Trim(s)[0]) && !IsWhitespace(Trim(s)[|Trim(s)| - 1])
  {
    var t := TrimStart(s);
    var lo := |s| - |t|;
    var r := TrimEnd(t);
    var hi := lo + |r|;
    assert t == s[lo..];
    assert r == s[lo..hi];
    assert s[hi..] == t[|r|..];
    if |r| > 0 {
      assert r[0] == t[0];
    }
  }

  /** Leading whitespace is all that `TrimStart` removes: it empties exactly the blank strings. */
  lemma {:induction false} TrimStartEmptyIff(s: string)
    ensures TrimStart(s) == [] <==> AllWhitespace(s)
  {
    if |s| > 0 && IsWhitespace(s[0]) {
      TrimStartEmptyIff(s[1..]);
      assert AllWhitespace(s) <==> AllWhitespace(s[1..]) by {
        assert forall i :: 0 < i < |s| ==> s[i] == s[1..][i - 1];
      }
    }
  }

  /** `TrimEnd` never removes a non-whitespace first character. */
  lemma {:induction false} TrimEndKeepsHead(t: string)
    requires |t| > 0 && !IsWhitespace(t[0])
    ensures |TrimEnd(t)| > 0
  {
    if |t| > 1 && IsWhitespace(t[|t| - 1]) {
      TrimEndKeepsHead(t[..|t| - 1]);
    }
  }

  /** A string is blank exactly when it consists of whitespace only (the empty string included). */
  lemma BlankIffAllWhitespace(s: string)
    ensures IsBlank(s) <==> AllWhitespace(s)
  {
    TrimStartEmptyIff(s);
    var t := TrimStart(s);
    if |t| > 0 {
      TrimEndKeepsHead(t);
    }
  }
}

=== FILE: json.dfy ===
/**
 * The JSON wire format of the chat endpoint's bodies.  The route answers with
 * `NextResponse.json({ message })` or `NextResponse.json({ error })`: an object
 * with a single string member, written by `JSON.stringify`.  The clients read
 * the body back either as raw text or through `response.json()`.
 */
module Json {
  import opened Wrappers

  /** A JSON object with exactly one string-valued member. */
  datatype Member = Member(key: string, value: string)

  /** The lower-case hexadecimal digit `JSON.stringify` writes for `n`. */
  function HexDigit(n: nat): char
    requires n < 16
  {
    if n < 10 then (48 + n) as char else (87 + n) as char
  }

  /** The value of a hexadecimal digit of either case, as `JSON.parse` reads it. */
  function HexValue(c: char): (r: Option<nat>)
    ensures r.Some? ==> r.value < 16
  {
    if '0' <= c <= '9' then Some(c as int - 48)
    else if 'a' <= c <= 'f' then Some(c as int - 87)
    else if 'A' <= c <= 'F' then Some(c as int - 55)
    else None
  }

  /** How `JSON.stringify` writes one character inside a string literal: the two
      special characters and the control characters are escaped, the rest is copied. */
  function EscapeChar(c: char): string
  {
    if c == '"' then ['\\', '"']
    else if c == '\\' then ['\\', '\\']
    else if c == 8 as char then ['\\', 'b']
    else if c == '\t' then ['\\', 't']
    else if c == '\n' then ['\\', 'n']
    else if c == 0x0C as char then ['\\', 'f']
    else if c == '\r' then ['\\', 'r']
    else if c as int < 0x20 then ['\\', 'u', '0', '0', HexDigit(c as int / 16), HexDigit(c as int % 16)]
    else [c]
  }

  /** The escaped contents of a string literal; escaping never shortens the text. */
  function Escape(s: string): (r: string)
    ensures |r| >= |s|
  {
    if s == [] then [] else EscapeChar(s[0]) + Escape(s[1..])
  }

  /** A JSON string literal. */
  function Quote(s: string): string
  {
    ['"'] + Escape(s) + ['"']
  }

  /** `JSON.stringify({ [m.key]: m.value })`: compact, no whitespace. */
  function Serialize(m: Member): (r: string)
    ensures |r| == |Escape(m.key)| + |Escape(m.value)| + 7
    ensures r[0] == '{' && r[1] == '"' && r[|r| - 2] == '"' && r[|r| - 1] == '}'
  {
    ['{'] + Quote(m.key) + [':'] + Quote(m.value) + ['}']
  }

  /** A `\uXXXX` escape. Code points in the surrogate range are refused: a string
      here is a sequence of Unicode scalar values. */
  function DecodeUnicode(a: char, b: char, c: char, d: char): (r: Option<(char, nat)>)
    ensures r.Some? ==> r.value.1 == 6
  {
    match (HexValue(a), HexValue(b), HexValue(c), HexValue(d))
    case (Some(h0), Some(h1), Some(h2), Some(h3)) =>
      var v := 4096 * h0 + 256 * h1 + 16 * h2 + h3;
      if 0xD800 <= v <= 0xDFFF then None else Some((v as char, 6))
    case _ => None
  }

  /** Reads one character of a string literal's contents: a plain character or one
      escape sequence, with the number of input characters used.  `None` at the
      closing quote, on a raw control character or on a malformed escape. */
  function DecodeChar(s: string): (r: Option<(char, nat)>)
    ensures r.Some? ==> 1 <= r.value.1 <= |s|
  {
    if |s| == 0 || s[0] == '"' || s[0] as int < 0x20 then None
    else if s[0] != '\\' then Some((s[0], 1))
    else if |s| < 2 then None
    else if s[1] == '"' then Some(('"', 2))
    else if s[1] == '\\' then Some(('\\', 2))
    else if s[1] == '/' then Some(('/', 2))
    else if s[1] == 'b' then Some((8 as char, 2))
    else if s[1] == 'f' then Some((0x0C as char, 2))
    else if s[1] == 'n' then Some(('\n', 2))
    else if s[1] == 'r' then Some(('\r', 2))
    else if s[1] == 't' then Some(('\t', 2))
    else if s[1] == 'u' && |s| >= 6 then DecodeUnicode(s[2], s[3], s[4], s[5])
    else None
  }

  /** Reads a string literal's contents up to and including the closing quote;
      returns the decoded text and the input after the quote. */
  function ParseChars(s: string): (r: Option<(string, string)>)
    ensures r.Some? ==> |r.value.1| < |s| && r.value.1 == s[|s| - |r.value.1|..]
    decreases |s|
  {
    if |s| > 0 && s[0] == '"' then Some(([], s[1..]))
    else match DecodeChar(s)
      case None => None
      case Some((c, n)) =>
        match ParseChars(s[n..])
        case None => None
        case Some((t, rest)) => Some(([c] + t, rest))
  }

  /** Reads one string literal from the front of `s`. */
  function ParseString(s: string): (r: Option<(string, string)>)
    ensures r.Some? ==> |r.value.1| < |s| - 1 && r.value.1 == s[|s| - |r.value.1|..]
  {
    if |s| > 0 && s[0] == '"' then ParseChars(s[1..]) else None
  }

  /** `JSON.parse` restricted to the compact single-member objects `Serialize` writes;
      any other text is `None`. */
  function ParseObject(s: string): (r: Option<Member>)
    ensures r.Some? ==> |s| >= 7 && s[0] == '{' && s[|s| - 1] == '}'
  {
    if |s| == 0 || s[0] != '{' then None
    else match ParseString(s[1..])
      case None => None
      case Some((k, r1)) =>
        if |r1| == 0 || r1[0] != ':' then None
        else match ParseString(r1[1..])
          case None => None
          case Some((v, r2)) => if r2 == ['}'] then Some(Member(k, v)) else None
  }

  /** Property access `data[name]` on a parsed body: `None` stands for `undefined`. */
  function Lookup(m: Member, name: string): (r: Option<string>)
    ensures r.Some? <==> m.key == name
    ensures r.Some? ==> r.value == m.value
  {
    if m.key == name then Some(m.value) else None
  }

  /** Each escaped character decodes back to itself, using exactly its escape. */
  lemma DecodeEscapeChar(c: char, t: string)
    ensures DecodeChar(EscapeChar(c) + t) == Some((c, |EscapeChar(c)|))
  {
    var e := EscapeChar(c);
    if c as int < 0x20 && c != 8 as char && c != '\t' && c != '\n' && c != 0x0C as char && c != '\r' {
      var s := e + t;
      assert s[2] == '0' && s[3] == '0';
      assert HexValue(s[4]) == Some(c as int / 16);
      assert HexValue(s[5]) == Some(c as int % 16);
    }
  }

  /** The decoder reads an escaped text followed by a closing quote back to the text. */
  lemma {:induction false} ParseCharsEscape(x: string, rest: string)
    ensures ParseChars(Escape(x) + ['"'] + rest) == Some((x, rest))
  {
    var s := Escape(x) + ['"'] + rest;
    if x == [] {
      assert s == ['"'] + rest;
    } else {
      var e := EscapeChar(x[0]);
      var tail := Escape(x[1..]) + ['"'] + rest;
      assert s == e + tail;
      DecodeEscapeChar(x[0], tail);
      assert s[0] != '"';
      assert s[|e|..] == tail;
      ParseCharsEscape(x[1..], rest);
      assert [x[0]] + x[1..] == x;
    }
  }

  /** Round trip: parsing what the route serializes yields the same member. */
  lemma ParseSerialize(m: Member)
    ensures ParseObject(Serialize(m)) == Some(m)
  {
    var r2 := ['}'];
    var r1 := [':'] + (['"'] + (Escape(m.value) + ['"'] + r2));
    var s := Serialize(m);
    SerializeShape(m, r1, s);
    ParseCharsEscape(m.key, r1);
    TailShape(m.value, r1);
    ParseCharsEscape(m.value, r2);
    ParseObjectOf(s, m.key, r1, m.value);
  }

  /** The layout of a serialized body, split where the parser splits it. */
  lemma SerializeShape(m: Member, r1: string, s: string)
    requires r1 == [':'] + (['"'] + (Escape(m.value) + ['"'] + ['}']))
    requires s == Serialize(m)
    ensures |s| > 1 && s[0] == '{' && s[1] == '"'
    ensures s[2..] == Escape(m.key) + ['"'] + r1
  {
    SerializeRegroup(m, r1);
    LiteralThenRest(s, Quote(m.key), Escape(m.key), r1);
  }

  /** `Serialize` regrouped as the opening brace, the key literal and the rest. */
  lemma SerializeRegroup(m: Member, r1: string)
    requires r1 == [':'] + (['"'] + (Escape(m.value) + ['"'] + ['}']))
    ensures Serialize(m) == ['{'] + (Quote(m.key) + r1)
  {
    assert [':'] + Quote(m.value) + ['}'] == r1;
  }

  /** Dropping a brace and a quote from `{"e"...` leaves `e"...`. */
  lemma LiteralThenRest(s: string, q: string, e: string, r1: string)
    requires q == ['"'] + e + ['"']
    requires s == ['{'] + (q + r1)
    ensures |s| > 1 && s[0] == '{' && s[1] == '"'
    ensures s[2..] == e + ['"'] + r1
  {
    assert s[1..] == q + r1;
  }

  /** The text after the key: a colon, then the quoted value and the closing brace. */
  lemma TailShape(v: string, r1: string)
    requires r1 == [':'] + (['"'] + (Escape(v) + ['"'] + ['}']))
    ensures |r1| > 1 && r1[0] == ':' && r1[1] == '"'
    ensures r1[2..] == Escape(v) + ['"'] + ['}']
  {
  }

  /** `ParseObject` unfolded once the two string literals are known to parse. */
  lemma ParseObjectOf(s: string, k: string, r1: string, v: string)
    requires |s| > 0 && s[0] == '{'
    requires |s| > 1 && s[1] == '"' && ParseChars(s[2..]) == Some((k, r1))
    requires |r1| > 1 && r1[0] == ':' && r1[1] == '"'
    requires ParseChars(r1[2..]) == Some((v, ['}']))
    ensures ParseObject(s) == Some(Member(k, v))
  {
    assert s[1..][1..] == s[2..];
    assert r1[1..][1..] == r1[2..];
  }
}

=== FILE: nav.dfy ===
/**
 * The navigation bar of `src/components/nav.tsx`: the rotating service badge,
 * the "scrolled" styling threshold, scroll-spy over the page's sections, link
 * clicks that scroll to a section, and the mobile menu.
 *
 * Pixel positions are `real`s; `probeOffset` stands for `window.innerHeight * 0.3`.
 */
module Nav {
  import opened Wrappers

  /** A badge of the services list: icon name and colour class. */
  datatype Service = Service(icon: string, color: string)

  const Services: seq<Service> := [
    Service("MessageCircle", "text-purple-500"),
    Service("BarChart2", "text-violet-500"),
    Service("FileText", "text-purple-500"),
    Service("Search", "text-violet-500"),
    Service("Mail", "text-purple-500"),
    Service("Share2", "text-violet-500"),
    Service("Users", "text-purple-500"),
    Service("LineChart", "text-violet-500")
  ]

  /** Height of the fixed bar, subtracted from a section's top when scrolling to it. */
  const NavOffset: real := 80.0

  /** Scroll position beyond which the bar gets its solid background. */
  const ScrolledThreshold: real := 50.0

  const CalendlyUrl := "https://calendly.com/haricrisbfreelancer/custodesk-ai-consultation-call"

  /** The bar's React state. */
  datatype NavState = NavState(isScrolled: bool, isOpen: bool, activeSection: string, serviceIndex: nat)

  /** A `section[id]` element: its id and its `offsetTop`/`offsetHeight`. */
  datatype Section = Section(id: string, top: real, height: real)

  /** What a handler asks the window to do besides updating state. */
  datatype Effect = NoEffect | ScrollTo(top: real) | OpenWindow(url: string)

  /** A click's new state and side effect.  `fragment` is the `#id` the browser's
      default action navigates to once the handler returns: `None` when the handler
      calls `preventDefault` or the element is not a link. */
  datatype Outcome = Outcome(state: NavState, effect: Effect, fragment: Option<string>)

  /** The badge shown can always be looked up: `services[serviceIndex]` is in range. */
  predicate ValidBadge(s: NavState)
  {
    s.serviceIndex < |Services|
  }

  /** The two-second interval: `(prev + 1) % services.length`. */
  function Tick(s: NavState): (r: NavState)
    ensures ValidBadge(r)
    ensures ValidBadge(s) ==> r.serviceIndex == if s.serviceIndex == |Services| - 1 then 0 else s.serviceIndex + 1
    ensures r == s.(serviceIndex := r.serviceIndex)
  {
    s.(serviceIndex := (s.serviceIndex + 1) % |Services|)
  }

  /** `n` interval ticks. */
  function Ticks(s: NavState, n: nat): NavState
    decreases n
  {
    if n == 0 then s else Ticks(Tick(s), n - 1)
  }

  /** After `n` ticks from a valid badge the index has advanced `n` places around the
      eight services. */
  lemma {:induction false} TicksRotate(s: NavState, n: nat)
    requires ValidBadge(s)
    ensures Ticks(s, n) == s.(serviceIndex := (s.serviceIndex + n) % 8)
    ensures ValidBadge(Ticks(s, n))
    decreases n
  {
    if n > 0 {
      TicksRotate(Tick(s), n - 1);
      assert (((s.serviceIndex + 1) % 8) + (n - 1)) % 8 == (s.serviceIndex + n) % 8;
    }
  }

  /** Every eight ticks the badge is back where it started. */
  lemma BadgeCycle(s: NavState)
    requires ValidBadge(s)
    ensures Ticks(s, 8) == s
  {
    TicksRotate(s, 8);
  }

  /** A section is under the probe position: `top <= probe < top + height`. */
  predicate Contains(sec: Section, probe: real)
  {
    sec.top <= probe < sec.top + sec.height
  }

  /** The `forEach` over the sections in document order: each section containing the
      probe sets the active id, so the last one wins; with none, the id is kept. */
  function Spy(sections: seq<Section>, probe: real, active: string): (r: string)
    ensures (forall j :: 0 <= j < |sections| ==> !Contains(sections[j], probe)) ==> r == active
    ensures forall i :: 0 <= i < |sections| && Contains(sections[i], probe)
                        && (forall j :: i < j < |sections| ==> !Contains(sections[j], probe))
                        ==> r == sections[i].id
    decreases |sections|
  {
    if sections == [] then active
    else
      var next := if Contains(sections[0], probe) then sections[0].id else active;
      Spy(sections[1..], probe, next)
  }

  /** The index of the last section containing the probe, if any: an independent
      description of which section scroll-spy selects. */
  function LastContaining(sections: seq<Section>, probe: real): (r: Option<nat>)
    ensures r.Some? ==> r.value < |sections| && Contains(sections[r.value], probe)
                        && forall j :: r.value < j < |sections| ==> !Contains(sections[j], probe)
    ensures r.None? ==> forall j :: 0 <= j < |sections| ==> !Contains(sections[j], probe)
  {
    if sections == [] then None
    else if Contains(sections[|sections| - 1], probe) then Some(|sections| - 1)
    else LastContaining(sections[..|sections| - 1], probe)
  }

  /** Scroll-spy picks the last section containing the probe, and keeps the current
      id when no section does. */
  lemma SpyIsLastContaining(sections: seq<Section>, probe: real, active: string)
    ensures Spy(sections, probe, active)
         == match LastContaining(sections, probe)
            case Some(i) => sections[i].id
            case None => active
  {
  }

  /** `handleScroll`: `isScrolled` follows `scrollY > 50`, and the active section is
      chosen at `scrollY + 0.3 * innerHeight`. */
  function HandleScroll(s: NavState, sections: seq<Section>, scrollY: real, probeOffset: real): (r: NavState)
    ensures r.isScrolled <==> scrollY > 50.0
    ensures r.activeSection == Spy(sections, scrollY + probeOffset, s.activeSection)
    ensures r.isOpen == s.isOpen && r.serviceIndex == s.serviceIndex
  {
    var scrolled := scrollY > ScrolledThreshold;
    var s1 := if scrolled != s.isScrolled then s.(isScrolled := scrolled) else s;
    s1.(activeSection := Spy(sections, scrollY + probeOffset, s1.activeSection))
  }

  /** `scrollToSection`, the desktop link: `target` is the `offsetTop` of
      `document.getElementById(id)`, if there is such an element.  The handler
      calls `preventDefault`, so the anchor's own navigation never runs. */
  function ScrollToSection(s: NavState, id: string, target: Option<real>): (r: Outcome)
    ensures target.Some? ==> r.state.activeSection == id && r.effect == ScrollTo(target.value - 80.0)
    ensures target.None? ==> r.state == s && r.effect == NoEffect
    ensures r.state.isOpen == s.isOpen && r.state.isScrolled == s.isScrolled
    ensures r.state.serviceIndex == s.serviceIndex
    ensures r.fragment == None
  {
    match target
    case Some(top) => Outcome(s.(activeSection := id), ScrollTo(top - NavOffset), None)
    case None => Outcome(s, NoEffect, None)
  }

  /** A mobile menu link, as written: the menu closes, then the desktop link's
      scrolling runs.  The handler takes no event and never calls `preventDefault`,
      so the anchor's default action still follows `href="#id"` afterwards. */
  function MobileLink(s: NavState, id: string, target: Option<real>): (r: Outcome)
    ensures !r.state.isOpen
    ensures r.state.activeSection == (if target.Some? then id else s.activeSection)
    ensures r.state.isScrolled == s.isScrolled && r.state.serviceIndex == s.serviceIndex
    ensures r.effect == (if target.Some? then ScrollTo(target.value - 80.0) else NoEffect)
    ensures r.fragment == Some(id)
  {
    ScrollToSection(s.(isOpen := false), id, target).(fragment := Some(id))
  }

  /** A mobile menu link as evidently intended: close the menu, then exactly the
      desktop handler, default action prevented. */
  function MobileLinkPrevented(s: NavState, id: string, target: Option<real>): (r: Outcome)
    ensures !r.state.isOpen
    ensures r.state.activeSection == (if target.Some? then id else s.activeSection)
    ensures r.state.isScrolled == s.isScrolled && r.state.serviceIndex == s.serviceIndex
    ensures r.effect == (if target.Some? then ScrollTo(target.value - 80.0) else NoEffect)
    ensures r.fragment == None
  {
    ScrollToSection(s.(isOpen := false), id, target)
  }

  /** Where the page comes to rest after a click on a link whose section has
      `offsetTop` `target`, if the section exists.  Fragment navigation runs after
      the handler and scrolls the section's top to the top of the viewport,
      superseding a smooth scroll still under way; without it the requested scroll
      stands.  `None`: the click does not scroll. */
  function LandsAt(o: Outcome, target: Option<real>): Option<real>
  {
    if o.fragment.Some? && target.Some? then target
    else if o.effect.ScrollTo? then Some(o.effect.top)
    else None
  }

  /** The mobile "Book a Call" button: close the menu and open the booking page. */
  function MobileBook(s: NavState): (r: Outcome)
    ensures !r.state.isOpen && r.effect == OpenWindow(CalendlyUrl) && r.fragment == None
    ensures r.state.isScrolled == s.isScrolled && r.state.activeSection == s.activeSection
    ensures r.state.serviceIndex == s.serviceIndex
  {
    Outcome(s.(isOpen := false), OpenWindow(CalendlyUrl), None)
  }

  /** The desktop "Book a Call" button: open the booking page, no state change. */
  function DesktopBook(s: NavState): (r: Outcome)
    ensures r.state == s && r.effect == OpenWindow(CalendlyUrl) && r.fragment == None
  {
    Outcome(s, OpenWindow(CalendlyUrl), None)
  }

  /** The menu button: `setIsOpen(!isOpen)`. */
  function ToggleMenu(s: NavState): (r: NavState)
    ensures r.isOpen != s.isOpen
    ensures r == s.(isOpen := r.isOpen)
  {
    s.(isOpen := !s.isOpen)
  }

  /** Toggling twice restores the menu. */
  lemma ToggleTwice(s: NavState)
    ensures ToggleMenu(ToggleMenu(s)) == s
  {
  }

  /** A click whose target section is missing still closes the mobile menu and
      still moves the location to `#id`, but scrolls nowhere and keeps the rest. */
  lemma MissingTargetStillCloses(s: NavState, id: string)
    ensures MobileLink(s, id, None) == Outcome(s.(isOpen := false), NoEffect, Some(id))
  {
  }

  /** A mobile link does what the desktop link does, with the menu closed, except
      that it lets the fragment navigation through. */
  lemma MobileLinkIsDesktopPlusClose(s: NavState, id: string, target: Option<real>)
    ensures MobileLink(s, id, target).effect == ScrollToSection(s, id, target).effect
    ensures MobileLink(s, id, target).state == ScrollToSection(s, id, target).state.(isOpen := false)
    ensures MobileLink(s, id, target).fragment == Some(id) && ScrollToSection(s, id, target).fragment == None
  {
  }

  /** The corrected mobile link is the desktop link with the menu closed, exactly. */
  lemma PreventedLinkIsDesktopPlusClose(s: NavState, id: string, target: Option<real>)
    ensures var d := ScrollToSection(s, id, target);
            MobileLinkPrevented(s, id, target) == d.(state := d.state.(isOpen := false))
  {
  }

  /** As written, a mobile link to an existing section comes to rest with the
      section's top at the top of the viewport, under the 80-pixel bar, where the
      desktop link leaves it 80 pixels lower. */
  lemma MobileLinkLosesOffset(s: NavState, id: string, top: real)
    ensures LandsAt(MobileLink(s, id, Some(top)), Some(top)) == Some(top)
    ensures LandsAt(ScrollToSection(s, id, Some(top)), Some(top)) == Some(top - NavOffset)
  {
  }

  /** Corrected, a mobile link lands where the desktop link lands: 80 pixels above
      the section when it exists, and nowhere new when it does not. */
  lemma PreventedLinkClearsBar(s: NavState, id: string, target: Option<real>)
    ensures LandsAt(MobileLinkPrevented(s, id, target), target) == LandsAt(ScrollToSection(s, id, target), target)
    ensures target.Some? ==> LandsAt(MobileLinkPrevented(s, id, target), target) == Some(target.value - 80.0)
    ensures target.None? ==> LandsAt(MobileLinkPrevented(s, id, target), target) == None
  {
  }

  /** The mobile booking button is the desktop one with the menu closed. */
  lemma MobileBookIsDesktopPlusClose(s: NavState)
    ensures MobileBook(s) == DesktopBook(s).(state := s.(isOpen := false))
  {
  }

  /** Every handler keeps the badge index in range. */
  lemma HandlersKeepBadge(s: NavState, sections: seq<Section>, y: real, off: real, id: string, target: Option<real>)
    requires ValidBadge(s)
    ensures ValidBadge(Tick(s)) && ValidBadge(HandleScroll(s, sections, y, off))
    ensures ValidBadge(ScrollToSection(s, id, target).state) && ValidBadge(MobileLink(s, id, target).state)
    ensures ValidBadge(MobileLinkPrevented(s, id, target).state)
    ensures ValidBadge(MobileBook(s).state) && ValidBadge(ToggleMenu(s))
  {
  }
}

=== FILE: wrappers.dfy ===
/** Failure-carrying values shared by every module of the model. */
module Wrappers {

  /** An optional value: a missing map key, an absent DOM element, an unparsable text. */
  datatype Option<+T> = None | Some(value: T)

  /** The outcome of an operation that either returns a value or throws an error. */
  datatype Result<+T, +E> = Ok(value: T) | Err(error: E)
}
